=== FILE: README.md ===
# Event registration back end: a Dafny model of its decision rules

The back end lets customers (students) register for events that admins
create. It also lets admins log in, create admin accounts and events, and
edit or delete events. Customers sign up, log in and update their profile.
Several list endpoints are paged. Most of each controller is HTTP and SQL
plumbing. This project models the decisions buried in that plumbing as pure
functions over an immutable database value:

- `common.dfy` (`Common`): optional values and JavaScript truthiness.
- `tables.dfy` (`Tables`): a table is a map from an auto-increment primary key to a row, plus the counter. A scan returns rows in key order.
- `pagination.dfy` (`Pagination`): covers the `parseInt(x) || default` query defaults, `LIMIT`/`OFFSET`, and the `meta` block.
- `schedule.dfy` (`Schedule`): covers minutes-to-start, the registration window, and the two three-way event status classifications.
- `store.dfy` (`Store`): holds the rows of `admins`, `event`, `customerinfo` and `registrations`, the lookups the controllers run, and the invariant `Consistent`.
- `event_controller.dfy` (`EventController`): covers registration, the event view with its attendees, a customer's registered events, and edit and delete.
- `admin_controller.dfy` (`AdminController`): covers login, admin creation, event creation and the event listing.
- `customer_controller.dfy` (`CustomerController`): covers sign-up-or-login, the profile update and the customer listing.

Each operation takes the database and the request values and returns the
reply, together with the database it leaves behind where the operation
writes (`Step`). A request field that is missing is `None` (JavaScript
`undefined`). A NULL column is also `None`. `!x` on a field is
`!Truthy(x)`, which covers both `None` and the empty string.

Some things are external, so they are parameters:
- the clock (`now`, in milliseconds);
- bcrypt hashing and comparison (`Hash`, `Verify`); the random salt `bcrypt.hash` draws is passed in as `salt`;
- JWT signing (`Sign`); it receives the issue time the library takes from the clock and the expiry one day later (`Token`);
- the composition of a stored date and time of day into a JavaScript `Date` (`Compose`).

The result of `Compose` is either a millisecond instant or an Invalid Date.
The source builds these dates in two different ways. The event view
(controllers/eventController.js:34-37) first reduces the date to its ISO day.
Registration and the admin listing (controllers/eventController.js:127,
controllers/adminController.js:195-196) interpolate the stored value as it
is. Both ways can yield an Invalid Date, for instance from a NULL time of
day. Only the first can also throw, on a NULL date. Every comparison with an
Invalid Date is false, and the model follows that through every branch.

Behaviour of the code that the model pins down:
- The comment on the early-arrival branch of registration speaks of 45 minutes, but the code uses 415. Arriving 16 to 415 minutes before the start therefore gets the "registration closed" reply, the same one a late arrival gets (`Schedule.EarlyArrivalIsClosed`). The model follows the code.
- With an Invalid Date start, and while now is not past a valid end, the event view reports a successful join, while the admin listing reports the event as ended (`Schedule.InvalidStartDisagrees`).
- The event view's join returns no row on a page past the event's registrations, so an existing event is reported as 404 there (`EventController.EventCustomersFoundIff`).
- `getAllEvents` reads a `status` query parameter and never uses it.
- The event view calls `toISOString()` on the stored start and end dates. A NULL date makes that throw, and the view answers with an internal error instead of the event (`EventController.EventCustomers`).
- The event view's `LEFT JOIN customerinfo` yields one row for every customer row with a registration's customer_id. Since `customer_id` is not shown to be unique, a registration can produce several attendees. With one row per customer_id (the `Consistent` invariant) the join holds exactly one row per registration (`EventController.JoinRowsOfUnique`).
- The event view selects `e.*, c.*`. The `customerinfo` columns come after the event's, so its `id` column overwrites the event's. The `id` in the reply's event data (controllers/eventController.js:52) is therefore the first attendee's `customerinfo` key, or NULL when that row has no customer. The model does not carry this field, since it only copies a column.
- A customer's registered events come from `SELECT e.*, r.*`. The registrations table's own `id` column comes after the event's and overwrites it, so each item's `eventId` is the registration's key, not the event's (`EventController.RegisteredEvents`). The model gives every table, registrations included, an auto-increment `id`.

The SQL has no `ORDER BY`. The model assumes that rows come back in primary
key order. It also assumes that the event view's join rows come in the
order of the registrations table, and that a registration's customer rows come in key order. Likewise a
customer's history (`event e LEFT JOIN registrations r`, controllers/eventController.js:237-241)
is taken to list its rows in registration-key order. MySQL rejects a negative `LIMIT` or
`OFFSET`. Every listing reports that failure as its internal-error outcome.
A negative `LIMIT` or `OFFSET` happens for a negative `page` or `per_page`
parameter, because `parseInt(x) || d` keeps negative numbers.

## Model

| member | source | states |
|---|---|---|
| Pagination.OrDefault | controllers/eventController.js:5-6 | NaN and 0 fall back to the default; any other parsed integer, negative ones included, is kept; a non-zero default never yields 0 |
| Pagination.CeilDiv | controllers/eventController.js:15 | the result is the ceiling of total / perPage, as a pair of inequalities for either sign of the divisor |
| Pagination.MakeMeta | controllers/eventController.js:86-96 | last_page is the least page count whose pages hold all rows; the next link is present iff page < last_page and points at page + 1; the previous link is present iff page > 1 and points at page - 1 |
| Pagination.Page | controllers/eventController.js:16-27 | the query fails iff perPage < 0 or page < 1; otherwise it returns at most perPage rows, starting at offset (page - 1) * perPage |
| Pagination.Window | controllers/eventController.js:25-26 | LIMIT/OFFSET returns the rows from the offset on, at most limit of them and none past the end |
| Pagination.PageNonEmptyIff | controllers/adminController.js:176-191 | with a positive page size, a page holds rows iff its number is at most last_page |
| Pagination.NextLinkIffNextPageHasRows | controllers/adminController.js:221 | the next_page_url link is present iff the next page holds rows |
| Pagination.PagesArePrefix | controllers/customerInfoController.js:116-127 | the first k pages laid end to end are the first k * perPage rows |
| Pagination.PagesCoverRows | controllers/customerInfoController.js:116-127 | pages 1 to last_page together return every row exactly once, in order |
| Schedule.MinutesToStart | controllers/eventController.js:129-130 | whole minutes to the start, rounded down, bracket the millisecond difference; an Invalid Date gives NaN |
| Schedule.EntryWindow | controllers/eventController.js:141-197 | open iff -15 <= minutes <= 15; not-started iff minutes > 415, with hours * 60 + minutes recombining and 0 <= minutes < 60; closed otherwise, which includes 16..415, below -15 and NaN |
| Schedule.OpenWindowInMillis | controllers/eventController.js:148-178 | the window opens strictly after 16 minutes before the start and closes 15 minutes after it, inclusive, in milliseconds |
| Schedule.EarlyArrivalIsClosed | controllers/eventController.js:141-147 | an arrival between 16 and 415 minutes early is refused as closed, not as not-started |
| Schedule.StatusMessage | controllers/eventController.js:42-48 | before-start iff now < start; after-end iff not before and now > end; joined otherwise, including now == start and now == end |
| Schedule.EventPhase | controllers/adminController.js:199-205 | upcoming iff now < start; starting iff start <= now <= end; ending otherwise; the three cases partition all inputs |
| Schedule.PhaseMonotone | controllers/adminController.js:199-205 | as now increases, an event's phase never moves backwards, for valid and Invalid Date starts and ends alike |
| Schedule.ClassificationsAgree | controllers/eventController.js:42-48 | for valid dates the view's message and the listing's phase agree case for case |
| Schedule.InvalidStartDisagrees | controllers/adminController.js:195-205 | with an Invalid Date start, while now is not past a valid end, the view says joined while the listing says ending |
| Store.AdminsNamed | controllers/adminController.js:25 | the admins with exactly this username, each once, in key order |
| Store.CustomersWithId | controllers/customerInfoController.js:13-16 | the customer rows with this customer_id, each once, in key order; a NULL id matches nothing |
| Store.RegistrationsWhere | controllers/eventController.js:132-135 | the registrations that match the event id and the customer_id, each condition only when given, each once, in key order |
| Store.EventsOfType | controllers/adminController.js:167-186 | with a non-empty event_type, the events of that type; otherwise every event; each once, in key order |
| Store.CustomersOfType | controllers/customerInfoController.js:106-122 | with a non-empty st_tpye, the customers with that student type; otherwise every customer; each once, in key order |
| Store.FindCustomer | controllers/customerInfoController.js:13-18 | finds the lowest-keyed row with the customer_id if one exists, and finds none iff no row has it; a NULL id matches nothing |
| EventController.Register | controllers/eventController.js:108-198 | each refusal happens exactly in its case: a missing customerId before any lookup; an absent event, or one with no admin, as not found; an existing pair at any time; for a new pair the reply is the one the entry window gives: not-started more than 415 minutes ahead, with hours and minutes that recombine, registered within 15 minutes either side of the start, closed otherwise; a row is inserted iff the reply is registered, and every refusal leaves the database unchanged |
| EventController.RegisterTwice | controllers/eventController.js:132-153 | after a successful registration, any later attempt for the same pair is refused and changes nothing |
| EventController.RegisterPreservesConsistency | controllers/eventController.js:132-178 | registration keeps the tables consistent, so there is never more than one row per (event, customer) pair |
| EventController.CustomerRows | controllers/eventController.js:22-23 | a registration joins every customer row with its customer_id, in key order, or a single NULL row iff there is none; so it yields the larger of 1 and the number of such rows, every such customer appears, and a NULL row appears iff a lookup by the id finds nobody |
| EventController.CustomerRowsOfUnique | controllers/eventController.js:22-23 | with one row per customer_id, a registration joins exactly the customer a lookup by its id finds, or NULL |
| EventController.AttendeesOf | controllers/eventController.js:20-23 | the join yields, for each registration, the larger of 1 and the number of customer rows with its customer_id, so at least one row per registration; every non-NULL attendee is a stored customer holding one of the registrations' customer_ids |
| EventController.AttendeesOfCovers | controllers/eventController.js:20-23 | every stored customer holding one of the registrations' customer_ids is among the attendees, and a NULL attendee appears iff some registration's customer_id finds no customer |
| EventController.AttendeesOfUnique | controllers/eventController.js:20-23 | with one row per customer_id, the join holds exactly one attendee per registration: the customer with its id, or NULL |
| EventController.JoinRows | controllers/eventController.js:19-27 | the join yields no row iff the event is missing; an event nobody registered for yields exactly the single all-NULL row; otherwise the per-registration counts add up; every non-NULL attendee is a stored customer registered for the event, and every stored customer registered for it appears |
| EventController.RegisteredIds | controllers/eventController.js:22-23 | the customer_ids of an event's registrations are exactly the customers registered for it |
| EventController.JoinRowsOfUnique | controllers/eventController.js:19-27 | with one row per customer_id, an event's join is the single all-NULL row when nobody registered, and otherwise one attendee per registration |
| EventController.EventCustomers | controllers/eventController.js:3-105 | 404 iff the page of join rows is empty; internal error iff page or per_page is negative, or the page has rows but the event's start or end date is NULL; a shown event carries the registration count in its meta and the status for its start and end, and holds 1..perPage attendees from its page of join rows |
| EventController.EventCustomersFoundIff | controllers/eventController.js:19-37 | the event is shown iff it exists, has both dates, and the page offset is below its number of join rows; with one row per customer_id, below the larger of 1 and its registration count |
| EventController.RegisteredEventRows | controllers/eventController.js:236-248 | each row is one of the given registrations, under the registration's key, with the existing event it names; every registration whose event still exists yields such a row; registrations given in key order give rows in key order |
| EventController.RegisteredEvents | controllers/eventController.js:206-276 | a missing customerId is refused; an unknown customer is 404; a negative page or per_page is an internal error; otherwise the meta counts all the customer's registrations, and the items are that page of the joined registrations whose event still exists, each under the registration's key with the event it names |
| EventController.HistoryRowsRegistered | controllers/eventController.js:236-248 | every item of a customer's history is one of that customer's registrations, and the customer is registered for its event |
| EventController.Edit | controllers/eventController.js:283-318 | a bad event_type is refused before the lookup; a missing event is 404; the edit happens iff the role is super_admin or the stored type equals the supplied one, and is refused with 403 exactly otherwise; it rewrites the six columns and the type, keeping the stored type when none is supplied; nothing else changes |
| EventController.Delete | controllers/eventController.js:326-353 | the same checks as Edit, with 403 exactly when the event exists and the permission test fails; a permitted delete removes exactly that event and changes nothing else, the key counter included |
| EventController.Edited | controllers/eventController.js:305-313 | the six columns take the request's values, the type takes the request's when truthy and otherwise keeps the stored one, and place, coordinates, province and admin_id are kept |
| EventController.EditWithoutTypeArg | controllers/eventController.js:304-313 | without event_type only a super admin may edit, and the stored type is kept |
| AdminController.Login | controllers/adminController.js:10-55 | the checks run in this order: missing secret, missing credentials, unknown username, then the password check against the first admin with that username only, failing iff that one admin's hash does not verify; success returns that admin, its role and the token signed for its id and role at the current second, valid for a day |
| AdminController.CreateAdmin | controllers/adminController.js:88-110 | the role whitelist is checked before completeness; success inserts exactly one admin holding the salted hash of the password and the given fields |
| AdminController.LoginAfterCreate | controllers/adminController.js:25-46 | a newly created admin with a new username can log in with its password and gets its own id, its role and the token for them |
| AdminController.CreateEvent | controllers/adminController.js:117-150 | an unknown admin_id is refused before the event_type check; the type must be special or normal; success inserts exactly one event under a fresh id and returns that id |
| AdminController.CreatedEventIsOpenForRegistration | controllers/adminController.js:145-150 | a created event is found by registration and has no registrations yet |
| AdminController.Listed | controllers/adminController.js:194-211 | each listed event carries its stored row and the phase for its start and end |
| AdminController.AllEvents | controllers/adminController.js:157-228 | the count and the page both use the event_type filter; the meta counts the matching events; the items are the page of matching events in key order, each with its phase |
| CustomerController.CreateOrLogin | controllers/customerInfoController.js:5-38 | a request missing customer_id, name or picture is refused with nothing changed; a known customer_id logs in with the stored row and changes nothing; a new customer_id inserts exactly one row holding the three fields and returns it |
| CustomerController.CreateOrLoginTwice | controllers/customerInfoController.js:13-38 | two sign-ups with the same customer_id insert once; the second returns the first's customer |
| CustomerController.WithProfile | controllers/customerInfoController.js:69-82 | every row with the customer_id gets the eight profile columns; nothing else in any row changes |
| CustomerController.UpdateProfile | controllers/customerInfoController.js:46-92 | an unknown customer_id is 404 with nothing changed; otherwise exactly the eight columns of that customer change; name, picture, total_point, faceUrl and other customers stay unchanged; the reply is the stored updated row |
| CustomerController.LookupSeesOnlyIds | controllers/customerInfoController.js:84-87 | a lookup by customer_id gives the same answer on any two tables that agree on keys and customer_ids |
| CustomerController.LoginSeesUpdate | controllers/customerInfoController.js:84-92 | after an update, logging in returns the updated row |
| CustomerController.UpdateIdempotent | controllers/customerInfoController.js:69-82 | repeating an update changes nothing further |
| CustomerController.AllCustomers | controllers/customerInfoController.js:100-144 | a negative page or per_page is an internal error; the count and the page both use the st_tpye filter; the items are the page of matching customers in key order, each the stored row under its key |

## Left out

- The database connection, routing and app wiring are not modelled. The SQL queries are map lookups and updates.
- Failures of the store are not modelled. This covers connectivity and any constraint the schema may impose that the code does not show, such as NOT NULL or UNIQUE columns and foreign-key cascades. Deleting an event leaves its registrations in place.
- The JWT middleware is not modelled. Its only logic is a role equality test. Handlers take the role from the verified token as a parameter.
- `uploadFaceIdImage` and the S3/multer upload are left out, because they move files on the filesystem.
- `getAdminData` is left out. It is a lookup by primary key with no decision.
- `logout` is left out. It returns a constant message.
- The rewards, LINE messaging and admin-management handlers that the routes import are left out, because they are not defined in these controllers.
- Composing dates and times into instants is left to the `Compose` parameter. Time zones and the string format are not modelled.
- The Thai reply texts are replaced by outcome tags.
- Response fields that only copy columns into JSON are not modelled. Examples are the event data in the register and view replies, and the admin's display fields beyond the stored row.
- Concurrency is not modelled. The check-then-insert in registration and in sign-up is not atomic in the source. The model covers sequential calls only.
- Request values are typed. Strings and integers stand in for JSON values of other types, and a JSON `null` in a request body is not distinguished from an absent field.
- String comparison in SQL is exact. The `=` tests on `customer_id`, `username`, `event_type` and `st_tpye` compare strings exactly. Under MySQL's default case-insensitive collations, "ABC" and "abc" would match. The collation is part of the schema, which is not part of this model.
- Columns that a sign-up does not write are taken to default to NULL. These are `total_point`, `faceUrl` and the eight profile columns. The schema that fixes the defaults is not part of this model.
- Table.Insert: gives every row a key no row has ever had. InnoDB before MySQL 8.0 resets the auto-increment counter to MAX(id)+1 on restart. Deleted events keep their registrations, so an event created after a restart could reuse a deleted event's key and inherit its registrations. Server restarts are not modelled, so `AdminController.CreatedEventIsOpenForRegistration` holds only between restarts.
- Pagination.Page: treats page and per_page as unbounded integers. In the source they are JavaScript numbers. Past 2^53 they lose precision, and from 1e21 on they are sent to MySQL in exponent notation. A LIMIT beyond MySQL's unsigned 64-bit range also fails. In those cases the source answers with an internal error where the model returns a page.

=== FILE: admin_controller.dfy ===
/** The decisions of the admin controller: logging in, creating admins and
    events, and the paged event listing. */
module AdminController {
  import opened Common
  import opened Tables
  import opened Pagination
  import opened Schedule
  import opened Store
  import EventController

  // ---------------------------------------------------------------------
  // adminLogin

  /** `bcrypt.compare(password, hash)`. */
  type Verify = (string, string) -> bool
  /** `jwt.sign({id, role}, secret, {expiresIn})`: the claims, the secret,
      and the issue and expiry times in seconds that the library stamps in. */
  type Sign = (nat, string, string, int, int) -> string

  /** `expiresIn: 86400`: a token lives one day. */
  const TokenLifetime := 86400

  /** The token for an admin signed at `now` (milliseconds): issued at the
      whole second, expiring a day later. */
  function Token(sign: Sign, id: nat, role: string, secret: string, now: int): string {
    sign(id, role, secret, now / 1000, now / 1000 + TokenLifetime)
  }

  datatype LoginOutcome =
    | ConfigError          // 500, JWT_SECRET unset
    | MissingCredentials   // 400
    | UnknownUsername      // 400
    | WrongPassword        // 400
    | LoggedIn(adminId: nat, admin: Admin, token: string)  // 200

  function Login(db: Db, secret: Option<string>, username: Option<string>, password: Option<string>,
                 verify: Verify, sign: Sign, now: int): (r: LoginOutcome)
    ensures r.ConfigError? <==> !Truthy(secret)
    ensures r.MissingCredentials? <==> Truthy(secret) && (!Truthy(username) || !Truthy(password))
    ensures r.UnknownUsername? <==>
            && Truthy(secret) && Truthy(username) && Truthy(password)
            && forall k :: k in db.admins.rows ==> db.admins.rows[k].username != username.value
    ensures r.WrongPassword? <==>
            && Truthy(secret) && Truthy(username) && Truthy(password)
            && AdminsNamed(db, username.value) != []
            && !verify(password.value, db.admins.rows[AdminsNamed(db, username.value)[0]].passwordHash)
    ensures r.LoggedIn? ==>
            && Truthy(secret) && Truthy(username) && Truthy(password)
            && r.adminId in db.admins.rows && r.admin == db.admins.rows[r.adminId]
            && r.admin.username == username.value
            && verify(password.value, r.admin.passwordHash)
            && r.token == Token(sign, r.adminId, r.admin.role, secret.value, now)
            && (forall k :: k in db.admins.rows && db.admins.rows[k].username == username.value ==> r.adminId <= k)
  {
    if !Truthy(secret) then ConfigError
    else if !Truthy(username) || !Truthy(password) then MissingCredentials
    else
      var matches := AdminsNamed(db, username.value);
      if matches == [] then UnknownUsername
      else
        var id := matches[0];
        var admin := db.admins.rows[id];
        if !verify(password.value, admin.passwordHash) then WrongPassword
        else
          assert forall k :: k in db.admins.rows && db.admins.rows[k].username == username.value ==> id <= k by {
            forall k | k in db.admins.rows && db.admins.rows[k].username == username.value ensures id <= k {
              FirstIsLeast(matches, k);
            }
          }
          LoggedIn(id, admin, Token(sign, id, admin.role, secret.value, now))
  }

  // ---------------------------------------------------------------------
  // createAdmin

  datatype AdminRequest = AdminRequest(username: Option<string>, password: Option<string>,
                                       firstname: Option<string>, lastname: Option<string>,
                                       role: Option<string>)

  datatype CreateAdminOutcome = InvalidRole | MissingFields | AdminCreated(role: string)

  predicate Complete(req: AdminRequest) {
    Truthy(req.username) && Truthy(req.password) && Truthy(req.firstname)
    && Truthy(req.lastname) && Truthy(req.role)
  }

  /** `bcrypt.hash(password, 8)` with the salt it draws at random. */
  type Hash = (string, string) -> string

  function CreateAdmin(db: Db, req: AdminRequest, hash: Hash, salt: string): (r: Step<CreateAdminOutcome>)
    ensures !OneOf(req.role, AdminRoles) ==> r == Step(InvalidRole, db)
    ensures OneOf(req.role, AdminRoles) && !Complete(req) ==> r == Step(MissingFields, db)
    ensures r.outcome.AdminCreated? <==> OneOf(req.role, AdminRoles) && Complete(req)
    ensures r.outcome.AdminCreated? ==>
            && r.outcome.role == req.role.value
            && r.db.admins.rows == db.admins.rows[db.admins.nextId :=
                 Admin(req.username.value, hash(req.password.value, salt),
                       req.firstname.value, req.lastname.value, req.role.value)]
            && r.db.events == db.events && r.db.customers == db.customers
            && r.db.registrations == db.registrations
    ensures Consistent(db) ==> Consistent(r.db)
  {
    if !OneOf(req.role, AdminRoles) then Step(InvalidRole, db)
    else if !Complete(req) then Step(MissingFields, db)
    else
      var row := Admin(req.username.value, hash(req.password.value, salt),
                       req.firstname.value, req.lastname.value, req.role.value);
      Step(AdminCreated(req.role.value), db.(admins := db.admins.Insert(row).0))
  }

  /** A newly created admin can log in with the password it was created
      with, and gets its own id and role back, provided the hash verifies
      against its password and no earlier admin holds the username. */
  lemma LoginAfterCreate(db: Db, req: AdminRequest, hash: Hash, salt: string, secret: Option<string>,
                         verify: Verify, sign: Sign, now: int)
    requires Consistent(db)
    requires CreateAdmin(db, req, hash, salt).outcome.AdminCreated?
    requires Truthy(secret)
    requires verify(req.password.value, hash(req.password.value, salt))
    requires forall k :: k in db.admins.rows ==> db.admins.rows[k].username != req.username.value
    ensures var db1 := CreateAdmin(db, req, hash, salt).db;
            Login(db1, secret, req.username, req.password, verify, sign, now)
            == LoggedIn(db.admins.nextId, db1.admins.rows[db.admins.nextId],
                        Token(sign, db.admins.nextId, req.role.value, secret.value, now))
  {
    var db1 := CreateAdmin(db, req, hash, salt).db;
    var id := db.admins.nextId;
    assert db1.admins.rows[id].username == req.username.value;
    var r := Login(db1, secret, req.username, req.password, verify, sign, now);
    assert !r.UnknownUsername?;
    assert forall k :: k in db1.admins.rows && db1.admins.rows[k].username == req.username.value ==> k == id;
  }

  // ---------------------------------------------------------------------
  // createEvent

  datatype EventRequest = EventRequest(
    activityName: Option<string>, course: Option<string>,
    startDate: Option<string>, endDate: Option<string>,
    startTime: Option<string>, endTime: Option<string>,
    place: Option<string>, latitude: Option<string>, longitude: Option<string>,
    province: Option<string>, adminId: Option<nat>, eventType: Option<string>)

  datatype CreateEventOutcome = InvalidAdmin | InvalidEventType | EventCreated(eventId: nat)

  /** The row the insert writes: every field as given. */
  function EventOf(req: EventRequest): Event {
    Event(req.activityName, req.course, req.startDate, req.endDate, req.startTime, req.endTime,
          req.place, req.latitude, req.longitude, req.province, req.adminId, req.eventType)
  }

  /** `SELECT * FROM admins WHERE id = ?` finds a row. */
  predicate KnownAdmin(db: Db, adminId: Option<nat>) {
    adminId.Some? && adminId.value in db.admins.rows
  }

  function CreateEvent(db: Db, req: EventRequest): (r: Step<CreateEventOutcome>)
    ensures !KnownAdmin(db, req.adminId) ==> r == Step(InvalidAdmin, db)
    ensures KnownAdmin(db, req.adminId) && !OneOf(req.eventType, EventTypes) ==> r == Step(InvalidEventType, db)
    ensures r.outcome.EventCreated? <==> KnownAdmin(db, req.adminId) && OneOf(req.eventType, EventTypes)
    ensures r.outcome.EventCreated? ==>
            && r.outcome.eventId == db.events.nextId
            && r.db.events.rows == db.events.rows[r.outcome.eventId := EventOf(req)]
            && r.db.admins == db.admins && r.db.customers == db.customers
            && r.db.registrations == db.registrations
            && (db.events.Valid() ==> r.outcome.eventId !in db.events.rows)
    ensures Consistent(db) ==> Consistent(r.db)
  {
    if !KnownAdmin(db, req.adminId) then Step(InvalidAdmin, db)
    else if !OneOf(req.eventType, EventTypes) then Step(InvalidEventType, db)
    else
      var (events, id) := db.events.Insert(EventOf(req));
      Step(EventCreated(id), db.(events := events))
  }

  /** An event created here is one registration can find: it has an owning
      admin, and nobody is registered for it yet. */
  lemma CreatedEventIsOpenForRegistration(db: Db, req: EventRequest, customerId: string)
    requires Consistent(db)
    requires CreateEvent(db, req).outcome.EventCreated?
    ensures var r := CreateEvent(db, req);
            && EventController.AdminOwned(r.db, r.outcome.eventId)
            && !IsRegistered(r.db, r.outcome.eventId, customerId)
  {
    var r := CreateEvent(db, req);
    var id := r.outcome.eventId;
    assert forall k :: k in db.registrations.rows ==> db.registrations.rows[k].eventId != id;
  }

  // ---------------------------------------------------------------------
  // getAllEvents

  /** An event row with the phase the listing adds as `status`. */
  datatype PhasedEvent = PhasedEvent(event: Event, status: Phase)

  datatype EventListing = EventsServerError | Events(meta: Meta, items: seq<Keyed<PhasedEvent>>)

  /** A listed item shows the stored event under its id, with the phase
      its start and end give at `now`. */
  predicate Shows(db: Db, item: Keyed<PhasedEvent>, compose: EventController.Compose, now: int) {
    && item.id in db.events.rows
    && item.row.event == db.events.rows[item.id]
    && item.row.status == EventPhase(now, EventController.StartOf(item.row.event, compose),
                                          EventController.EndOf(item.row.event, compose))
  }

  function Listed(db: Db, keys: seq<nat>, compose: EventController.Compose, now: int): (r: seq<Keyed<PhasedEvent>>)
    requires forall k :: k in keys ==> k in db.events.rows
    ensures |r| == |keys|
    ensures forall i :: 0 <= i < |keys| ==> r[i].id == keys[i] && Shows(db, r[i], compose, now)
  {
    if keys == [] then []
    else
      var e := db.events.rows[keys[0]];
      [Keyed(keys[0], PhasedEvent(e, EventPhase(now, EventController.StartOf(e, compose), EventController.EndOf(e, compose))))]
      + Listed(db, keys[1..], compose, now)
  }

  /** The item passes the optional `event_type` filter. */
  predicate OfType(item: Keyed<PhasedEvent>, eventType: Option<string>) {
    !Truthy(eventType) || item.row.event.eventType == eventType
  }

  function AllEvents(db: Db, pageArg: Option<int>, perPageArg: Option<int>, eventType: Option<string>,
                     compose: EventController.Compose, now: int): (r: EventListing)
    ensures var page := OrDefault(pageArg, DefaultPage);
            var perPage := OrDefault(perPageArg, DefaultPerPage);
            && (r.EventsServerError? <==> perPage < 0 || page < 1)
            && (r.Events? ==>
                  && r.meta == MakeMeta(|EventsOfType(db, eventType)|, perPage, page)
                  && Page(EventsOfType(db, eventType), page, perPage) == Some(Ids(r.items)))
    ensures r.Events? ==>
              forall i :: 0 <= i < |r.items| ==>
                Shows(db, r.items[i], compose, now) && OfType(r.items[i], eventType)
  {
    var page := OrDefault(pageArg, DefaultPage);
    var perPage := OrDefault(perPageArg, DefaultPerPage);
    var keys := EventsOfType(db, eventType);
    match Page(keys, page, perPage)
    case None => EventsServerError
    case Some(window) =>
      PageWithin(keys, page, perPage);
      ListedOfType(db, eventType, window, compose, now);
      Events(MakeMeta(|keys|, perPage, page), Listed(db, window, compose, now))
  }

  /** Listing keys the filter selected yields items that pass it, under
      those same keys. */
  lemma ListedOfType(db: Db, eventType: Option<string>, window: seq<nat>,
                     compose: EventController.Compose, now: int)
    requires forall k :: k in window ==> k in EventsOfType(db, eventType)
    ensures forall k :: k in window ==> k in db.events.rows
    ensures Ids(Listed(db, window, compose, now)) == window
    ensures forall item :: item in Listed(db, window, compose, now) ==> OfType(item, eventType)
  {
    var items := Listed(db, window, compose, now);
    forall item | item in items ensures OfType(item, eventType) {
      var i :| 0 <= i < |items| && items[i] == item;
      assert window[i] in window;
    }
  }
}

=== FILE: common.dfy ===
/** Values shared by every controller: optional values and JavaScript truthiness. */
module Common {

  /** An optional value. For request and column values, `None` stands for
      `undefined` in a request body and for SQL `NULL` in a stored row. */
  datatype Option<+T> = None | Some(value: T)

  /** JavaScript truthiness of a string-valued request field: `!x` holds
      exactly for `undefined` and the empty string. */
  predicate Truthy(x: Option<string>) {
    x.Some? && x.value != ""
  }

  /** `x || fallback` for string-valued fields. */
  function OrElse(x: Option<string>, fallback: Option<string>): (r: Option<string>)
    ensures Truthy(x) ==> r == x
    ensures !Truthy(x) ==> r == fallback
  {
    if Truthy(x) then x else fallback
  }

  /** `[...].includes(x)` over a list of string literals, with `===` equality. */
  predicate OneOf(x: Option<string>, allowed: seq<string>) {
    x.Some? && x.value in allowed
  }
}

=== FILE: customer_controller.dfy ===
/** The decisions of the customer controller: sign-up-or-login, the
    profile update, and the paged customer listing. */
module CustomerController {
  import opened Common
  import opened Tables
  import opened Pagination
  import opened Store

  // ---------------------------------------------------------------------
  // createOrLoginCustomer

  datatype CustomerOutcome =
    | MissingFields              // 400
    | Created(customer: Customer)   // 201
    | LoggedIn(customer: Customer)  // 200

  /** The row a sign-up inserts: the three given columns; every other column
      takes its default, NULL. */
  function NewCustomer(customerId: string, name: string, picture: string): Customer {
    Customer(customerId, name, picture, BlankProfile, None, None)
  }

  predicate SignUpComplete(customerId: Option<string>, name: Option<string>, picture: Option<string>) {
    Truthy(customerId) && Truthy(name) && Truthy(picture)
  }

  function CreateOrLogin(db: Db, customerId: Option<string>, name: Option<string>, picture: Option<string>): (r: Step<CustomerOutcome>)
    ensures !SignUpComplete(customerId, name, picture) ==> r == Step(MissingFields, db)
    ensures SignUpComplete(customerId, name, picture) && FindCustomer(db, customerId).Some?
            ==> r == Step(LoggedIn(db.customers.rows[FindCustomer(db, customerId).value]), db)
    ensures r.outcome.Created? <==> SignUpComplete(customerId, name, picture) && FindCustomer(db, customerId).None?
    ensures r.outcome.Created? ==>
            && r.outcome.customer == NewCustomer(customerId.value, name.value, picture.value)
            && r.db.customers.rows == db.customers.rows[db.customers.nextId := r.outcome.customer]
            && r.db.admins == db.admins && r.db.events == db.events
            && r.db.registrations == db.registrations
    ensures r.outcome.LoggedIn? ==> r.outcome.customer.customerId == customerId.value
    ensures Consistent(db) ==> Consistent(r.db)
  {
    if !SignUpComplete(customerId, name, picture) then Step(MissingFields, db)
    else
      var found := FindCustomer(db, customerId);
      if found.Some? then Step(LoggedIn(db.customers.rows[found.value]), db)
      else
        var row := NewCustomer(customerId.value, name.value, picture.value);
        var (customers, id) := db.customers.Insert(row);
        Step(Created(customers.rows[id]), db.(customers := customers))
  }

  /** Signing in again with the same `customer_id` inserts nothing and logs
      in as the customer the first call returned, whatever name and picture
      the second call carries. */
  lemma CreateOrLoginTwice(db: Db, customerId: Option<string>, name: Option<string>, picture: Option<string>,
                           name2: Option<string>, picture2: Option<string>)
    requires CreateOrLogin(db, customerId, name, picture).outcome != MissingFields
    requires Truthy(name2) && Truthy(picture2)
    ensures var r1 := CreateOrLogin(db, customerId, name, picture);
            CreateOrLogin(r1.db, customerId, name2, picture2) == Step(LoggedIn(r1.outcome.customer), r1.db)
  {
    var r1 := CreateOrLogin(db, customerId, name, picture);
    if r1.outcome.Created? {
      var id := db.customers.nextId;
      assert r1.db.customers.rows[id].customerId == customerId.value;
      var found := FindCustomer(r1.db, customerId);
      assert found.value == id;
    }
  }

  // ---------------------------------------------------------------------
  // updateCustomerProfile

  datatype UpdateOutcome = CustomerNotFound | ProfileUpdated(customer: Customer)

  /** One row under `UPDATE customerinfo SET <eight columns> WHERE
      customer_id = ?`: a matching row gets the new profile, and nothing
      else in any row changes. */
  predicate ProfileWritten(before: Customer, after: Customer, customerId: Option<string>, profile: Profile) {
    after == before.(profile := if customerId == Some(before.customerId) then profile else before.profile)
  }

  function WithProfile(rows: map<nat, Customer>, customerId: Option<string>, profile: Profile): (r: map<nat, Customer>)
    ensures r.Keys == rows.Keys
    ensures forall k :: k in rows ==> ProfileWritten(rows[k], r[k], customerId, profile)
  {
    map k | k in rows :: if customerId == Some(rows[k].customerId) then rows[k].(profile := profile) else rows[k]
  }

  /** Two customer tables with the same keys and the same `customer_id` in
      every row. */
  predicate SameCustomerIds(a: map<nat, Customer>, b: map<nat, Customer>) {
    a.Keys == b.Keys && forall k :: k in a ==> a[k].customerId == b[k].customerId
  }

  /** Lookups by `customer_id` only see that column. */
  lemma LookupSeesOnlyIds(db: Db, db1: Db, customerId: Option<string>)
    requires SameCustomerIds(db.customers.rows, db1.customers.rows)
    ensures CustomersWithId(db1, customerId) == CustomersWithId(db, customerId)
    ensures FindCustomer(db1, customerId) == FindCustomer(db, customerId)
  {
    IncreasingUnique(CustomersWithId(db1, customerId), CustomersWithId(db, customerId));
  }

  function UpdateProfile(db: Db, customerId: Option<string>, profile: Profile): (r: Step<UpdateOutcome>)
    ensures FindCustomer(db, customerId).None? <==> r.outcome.CustomerNotFound?
    ensures r.outcome.CustomerNotFound? ==> r.db == db
    ensures r.outcome.ProfileUpdated? ==>
            && r.db.customers.rows.Keys == db.customers.rows.Keys
            && r.db.customers.nextId == db.customers.nextId
            && (forall k :: k in db.customers.rows ==>
                  ProfileWritten(db.customers.rows[k], r.db.customers.rows[k], customerId, profile))
            && r.db.admins == db.admins && r.db.events == db.events
            && r.db.registrations == db.registrations
    ensures r.outcome.ProfileUpdated? ==>
            && FindCustomer(r.db, customerId) == FindCustomer(db, customerId)
            && r.outcome.customer == r.db.customers.rows[FindCustomer(db, customerId).value]
            && r.outcome.customer.profile == profile
    ensures Consistent(db) ==> Consistent(r.db)
  {
    var found := FindCustomer(db, customerId);
    if found.None? then Step(CustomerNotFound, db)
    else
      var customers := db.customers.(rows := WithProfile(db.customers.rows, customerId, profile));
      var db1 := db.(customers := customers);
      LookupSeesOnlyIds(db, db1, customerId);
      Step(ProfileUpdated(db1.customers.rows[found.value]), db1)
  }

  /** After a profile update the next login returns the updated record. */
  lemma LoginSeesUpdate(db: Db, customerId: Option<string>, profile: Profile, name: Option<string>, picture: Option<string>)
    requires exists k :: k in db.customers.rows && customerId == Some(db.customers.rows[k].customerId)
    requires Truthy(customerId) && Truthy(name) && Truthy(picture)
    ensures var u := UpdateProfile(db, customerId, profile);
            CreateOrLogin(u.db, customerId, name, picture) == Step(LoggedIn(u.outcome.customer), u.db)
  {
  }

  /** Repeating an update changes nothing more. */
  lemma UpdateIdempotent(db: Db, customerId: Option<string>, profile: Profile)
    requires exists k :: k in db.customers.rows && customerId == Some(db.customers.rows[k].customerId)
    ensures var u := UpdateProfile(db, customerId, profile);
            UpdateProfile(u.db, customerId, profile) == u
  {
    var u := UpdateProfile(db, customerId, profile);
    WithProfileIdempotent(db.customers.rows, customerId, profile);
    assert u.db.customers.rows == WithProfile(db.customers.rows, customerId, profile);
  }

  /** Writing the same profile twice leaves the rows as one write did. */
  lemma WithProfileIdempotent(rows: map<nat, Customer>, customerId: Option<string>, profile: Profile)
    ensures var once := WithProfile(rows, customerId, profile);
            WithProfile(once, customerId, profile) == once
  {
    var once := WithProfile(rows, customerId, profile);
    var twice := WithProfile(once, customerId, profile);
    forall k | k in once ensures twice[k] == once[k] {
      assert ProfileWritten(rows[k], once[k], customerId, profile);
      assert ProfileWritten(once[k], twice[k], customerId, profile);
    }
  }

  // ---------------------------------------------------------------------
  // getAllCustomers

  datatype CustomerListing = CustomersServerError | Customers(meta: Meta, items: seq<Keyed<Customer>>)

  function ListedAt(db: Db, keys: seq<nat>): (r: seq<Keyed<Customer>>)
    requires forall k :: k in keys ==> k in db.customers.rows
    ensures |r| == |keys|
    ensures forall i :: 0 <= i < |keys| ==> r[i] == Keyed(keys[i], db.customers.rows[keys[i]])
  {
    if keys == [] then [] else [Keyed(keys[0], db.customers.rows[keys[0]])] + ListedAt(db, keys[1..])
  }

  /** A listed row is the stored row under its key and passes the filter. */
  predicate Matches(db: Db, item: Keyed<Customer>, stType: Option<string>) {
    && item.id in db.customers.rows && item.row == db.customers.rows[item.id]
    && (!Truthy(stType) || item.row.profile.stTpye == stType)
  }

  function AllCustomers(db: Db, pageArg: Option<int>, perPageArg: Option<int>, stType: Option<string>): (r: CustomerListing)
    ensures var page := OrDefault(pageArg, DefaultPage);
            var perPage := OrDefault(perPageArg, DefaultPerPage);
            && (r.CustomersServerError? <==> perPage < 0 || page < 1)
            && (r.Customers? ==>
                  && r.meta == MakeMeta(|CustomersOfType(db, stType)|, perPage, page)
                  && Page(CustomersOfType(db, stType), page, perPage) == Some(Ids(r.items)))
    ensures r.Customers? ==> forall i :: 0 <= i < |r.items| ==> Matches(db, r.items[i], stType)
  {
    var page := OrDefault(pageArg, DefaultPage);
    var perPage := OrDefault(perPageArg, DefaultPerPage);
    var keys := CustomersOfType(db, stType);
    match Page(keys, page, perPage)
    case None => CustomersServerError
    case Some(window) =>
      PageWithin(keys, page, perPage);
      ListedMatch(db, stType, window);
      Customers(MakeMeta(|keys|, perPage, page), ListedAt(db, window))
  }

  /** Listing keys the filter selected yields the rows under those keys,
      each passing the filter. */
  lemma ListedMatch(db: Db, stType: Option<string>, window: seq<nat>)
    requires forall k :: k in window ==> k in CustomersOfType(db, stType)
    ensures forall k :: k in window ==> k in db.customers.rows
    ensures Ids(ListedAt(db, window)) == window
    ensures forall item :: item in ListedAt(db, window) ==> Matches(db, item, stType)
  {
    var items := ListedAt(db, window);
    forall item | item in items ensures Matches(db, item, stType) {
      var i :| 0 <= i < |items| && items[i] == item;
      assert window[i] in window;
    }
  }
}

=== FILE: event_controller.dfy ===
/** The decisions of the event controller: registering a customer for an
    event, the event view with its attendees, a customer's registered events,
    and editing or deleting an event. */
module EventController {
  import opened Common
  import opened Tables
  import opened Pagination
  import opened Schedule
  import opened Store

  /** Turns a stored date and time-of-day into an instant. */
  type Compose = (Option<string>, Option<string>) -> Instant

  function StartOf(e: Event, compose: Compose): Instant {
    compose(e.startDate, e.startTime)
  }

  function EndOf(e: Event, compose: Compose): Instant {
    compose(e.endDate, e.endTime)
  }

  // ---------------------------------------------------------------------
  // registerCustomerForEvent

  datatype RegisterOutcome =
    | MissingCustomer        // 400, no customerId
    | EventNotFound          // 404, no such event or no owning admin
    | AlreadyRegistered      // 400
    | NotStartedYet(hours: int, minutes: int)  // 400, with the time left
    | Registered             // 201
    | Closed                 // 400, registration time is over

  /** `SELECT * FROM event WHERE id = ? AND admin_id IS NOT NULL` finds it. */
  predicate AdminOwned(db: Db, eventId: nat) {
    eventId in db.events.rows && db.events.rows[eventId].adminId.Some?
  }

  /** The registrations table after the one insert. */
  function WithRegistration(db: Db, eventId: nat, customerId: string): Db {
    db.(registrations := db.registrations.Insert(Registration(eventId, customerId)).0)
  }

  function Register(db: Db, eventId: nat, customerId: Option<string>, compose: Compose, now: int): (r: Step<RegisterOutcome>)
    ensures r.outcome.MissingCustomer? <==> !Truthy(customerId)
    ensures r.outcome.EventNotFound? <==> Truthy(customerId) && !AdminOwned(db, eventId)
    ensures r.outcome.AlreadyRegistered? <==>
            Truthy(customerId) && AdminOwned(db, eventId) && IsRegistered(db, eventId, customerId.value)
    ensures Truthy(customerId) && AdminOwned(db, eventId) && !IsRegistered(db, eventId, customerId.value) ==>
            r.outcome == match EntryWindow(MinutesToStart(StartOf(db.events.rows[eventId], compose), now))
                         case Wait(h, m) => NotStartedYet(h, m)
                         case Open => Registered
                         case Expired => Closed
    ensures r.outcome.Registered? <==>
            && Truthy(customerId) && AdminOwned(db, eventId)
            && !IsRegistered(db, eventId, customerId.value)
            && OpenAt(StartOf(db.events.rows[eventId], compose), now)
    ensures r.outcome.Registered? ==> r.db == WithRegistration(db, eventId, customerId.value)
    ensures !r.outcome.Registered? ==> r.db == db
    ensures r.outcome.NotStartedYet? ==>
            && var start := StartOf(db.events.rows[eventId], compose);
            && start.At? && start.ms - now >= (NotStartedAbove + 1) * MsPerMinute
            && r.outcome.hours * 60 + r.outcome.minutes == MinutesToStart(start, now).value
            && 0 <= r.outcome.minutes < 60
    ensures r.outcome.Closed? ==>
            && Truthy(customerId) && AdminOwned(db, eventId)
            && !IsRegistered(db, eventId, customerId.value)
            && EntryWindow(MinutesToStart(StartOf(db.events.rows[eventId], compose), now)).Expired?
  {
    if !Truthy(customerId) then Step(MissingCustomer, db)
    else if !AdminOwned(db, eventId) then Step(EventNotFound, db)
    else
      var start := StartOf(db.events.rows[eventId], compose);
      var minutes := MinutesToStart(start, now);
      if IsRegistered(db, eventId, customerId.value) then Step(AlreadyRegistered, db)
      else
        OpenWindowInMillis(start, now);
        match EntryWindow(minutes)
        case Wait(h, m) =>
          ScaleMonotone(minutes.value, NotStartedAbove + 1, MsPerMinute);
          Step(NotStartedYet(h, m), db)
        case Open => Step(Registered, WithRegistration(db, eventId, customerId.value))
        case Expired => Step(Closed, db)
  }

  /** Once a registration succeeds, every later attempt for the same pair is
      refused at any time and changes nothing. */
  lemma RegisterTwice(db: Db, eventId: nat, customerId: Option<string>, compose: Compose, t1: int, t2: int)
    requires Register(db, eventId, customerId, compose, t1).outcome.Registered?
    ensures var db1 := Register(db, eventId, customerId, compose, t1).db;
            Register(db1, eventId, customerId, compose, t2) == Step(AlreadyRegistered, db1)
  {
    var db1 := Register(db, eventId, customerId, compose, t1).db;
    var (_, key) := db.registrations.Insert(Registration(eventId, customerId.value));
    assert db1.registrations.rows[key] == Registration(eventId, customerId.value);
  }

  /** Registration keeps the tables consistent; in particular no pair is
      ever registered twice. */
  lemma RegisterPreservesConsistency(db: Db, eventId: nat, customerId: Option<string>, compose: Compose, now: int)
    requires Consistent(db)
    ensures Consistent(Register(db, eventId, customerId, compose, now).db)
  {
    var r := Register(db, eventId, customerId, compose, now);
    if r.outcome.Registered? {
      var row := Registration(eventId, customerId.value);
      var (t, key) := db.registrations.Insert(row);
      assert forall j :: j in db.registrations.rows ==> db.registrations.rows[j] != row;
    }
  }

  // ---------------------------------------------------------------------
  // getEventWithCustomerCount

  datatype ViewOutcome =
    | ViewNotFound
    | ViewServerError
    | View(meta: Meta, status: Message, attendees: seq<Option<Customer>>)

  /** The first customer with this `customer_id`, if any. */
  function CustomerOf(db: Db, customerId: string): (r: Option<Customer>)
    ensures r.Some? <==> exists k :: k in db.customers.rows && db.customers.rows[k].customerId == customerId
    ensures r.Some? ==> r.value.customerId == customerId && r.value in db.customers.rows.Values
  {
    var found := FindCustomer(db, Some(customerId));
    if found.None? then None else Some(db.customers.rows[found.value])
  }

  /** The stored customers under the given keys. */
  function CustomersAt(db: Db, keys: seq<nat>): (r: seq<Option<Customer>>)
    requires forall k :: k in keys ==> k in db.customers.rows
    ensures |r| == |keys|
    ensures forall i :: 0 <= i < |keys| ==> r[i] == Some(db.customers.rows[keys[i]])
    ensures forall k :: k in keys ==> Some(db.customers.rows[k]) in r
    ensures None !in r
  {
    if keys == [] then []
    else
      var rest := CustomersAt(db, keys[1..]);
      assert forall k :: k in keys ==> k == keys[0] || k in keys[1..];
      [Some(db.customers.rows[keys[0]])] + rest
  }

  /** The `customerinfo` side of one registration's LEFT JOIN: every row
      with its `customer_id`, or a single all-NULL row when there is none. */
  function CustomerRows(db: Db, customerId: string): (r: seq<Option<Customer>>)
    ensures r == [None] <==> forall k :: k in db.customers.rows ==> db.customers.rows[k].customerId != customerId
    ensures r != [None] ==>
              var keys := CustomersWithId(db, Some(customerId));
              |r| == |keys| && forall i :: 0 <= i < |keys| ==> r[i] == Some(db.customers.rows[keys[i]])
    ensures |r| == Max(1, |CustomersWithId(db, Some(customerId))|)
    ensures forall k :: k in db.customers.rows && db.customers.rows[k].customerId == customerId ==>
              Some(db.customers.rows[k]) in r
    ensures None in r <==> CustomerOf(db, customerId).None?
  {
    var keys := CustomersWithId(db, Some(customerId));
    NoCustomerRows(db, customerId);
    if keys == [] then [None] else CustomersAt(db, keys)
  }

  /** A `customer_id` has no `customerinfo` rows exactly when no customer is
      found for it. */
  lemma NoCustomerRows(db: Db, customerId: string)
    ensures CustomersWithId(db, Some(customerId)) == [] <==> CustomerOf(db, customerId).None?
    ensures CustomersWithId(db, Some(customerId)) == [] <==>
              forall k :: k in db.customers.rows ==> db.customers.rows[k].customerId != customerId
  {
    var keys := CustomersWithId(db, Some(customerId));
    if keys != [] {
      assert keys[0] in keys;
    }
  }

  /** With one row per `customer_id`, a registration joins exactly the
      customer a lookup by that id finds, or NULL. */
  lemma CustomerRowsOfUnique(db: Db, customerId: string)
    requires UniqueCustomers(db.customers)
    ensures CustomerRows(db, customerId) == [CustomerOf(db, customerId)]
  {
    var keys := CustomersWithId(db, Some(customerId));
    assert |keys| <= 1;
  }

  /** The `customer_id` of each of the given registrations. */
  function CustomerIdsOf(db: Db, keys: seq<nat>): (r: seq<string>)
    requires forall k :: k in keys ==> k in db.registrations.rows
    ensures |r| == |keys|
    ensures forall i :: 0 <= i < |keys| ==> r[i] == db.registrations.rows[keys[i]].customerId
  {
    if keys == [] then [] else [db.registrations.rows[keys[0]].customerId] + CustomerIdsOf(db, keys[1..])
  }

  /** How many rows the LEFT JOIN yields for the given registrations: for
      each, one per customer row with its `customer_id`, and at least one. */
  function JoinCount(db: Db, keys: seq<nat>): nat
    requires forall k :: k in keys ==> k in db.registrations.rows
  {
    if keys == [] then 0
    else
      var n := |CustomersWithId(db, Some(db.registrations.rows[keys[0]].customerId))|;
      (if n == 0 then 1 else n) + JoinCount(db, keys[1..])
  }

  /** The join rows of the given registrations, each registration's rows in
      turn: as many as the LEFT JOIN yields, and every attendee is NULL or a
      stored customer holding one of the registrations' `customer_id`s. */
  function AttendeesOf(db: Db, keys: seq<nat>): (r: seq<Option<Customer>>)
    requires forall k :: k in keys ==> k in db.registrations.rows
    ensures |r| == JoinCount(db, keys)
    ensures |r| >= |keys|
    ensures forall x :: x in r && x.Some? ==>
              x.value in db.customers.rows.Values && x.value.customerId in CustomerIdsOf(db, keys)
  {
    if keys == [] then []
    else
      var id := db.registrations.rows[keys[0]].customerId;
      var first := CustomerRows(db, id);
      var rest := AttendeesOf(db, keys[1..]);
      assert CustomerIdsOf(db, keys) == [id] + CustomerIdsOf(db, keys[1..]);
      first + rest
  }

  /** The join misses nobody: every stored customer holding one of the
      registrations' `customer_id`s is among the attendees, and a NULL
      attendee appears exactly when some registration has no customer. */
  lemma {:induction false} AttendeesOfCovers(db: Db, keys: seq<nat>)
    requires forall k :: k in keys ==> k in db.registrations.rows
    ensures forall k :: k in db.customers.rows && db.customers.rows[k].customerId in CustomerIdsOf(db, keys) ==>
              Some(db.customers.rows[k]) in AttendeesOf(db, keys)
    ensures None in AttendeesOf(db, keys) <==> None in FirstAttendees(db, keys)
  {
    if keys != [] {
      var id := db.registrations.rows[keys[0]].customerId;
      AttendeesOfCovers(db, keys[1..]);
      assert AttendeesOf(db, keys) == CustomerRows(db, id) + AttendeesOf(db, keys[1..]);
      assert CustomerIdsOf(db, keys) == [id] + CustomerIdsOf(db, keys[1..]);
      assert FirstAttendees(db, keys) == [CustomerOf(db, id)] + FirstAttendees(db, keys[1..]);
    }
  }

  /** One attendee per registration: the customer a lookup by its
      `customer_id` finds, or NULL. */
  function FirstAttendees(db: Db, keys: seq<nat>): (r: seq<Option<Customer>>)
    requires forall k :: k in keys ==> k in db.registrations.rows
    ensures |r| == |keys|
    ensures forall i :: 0 <= i < |keys| ==> r[i] == CustomerOf(db, db.registrations.rows[keys[i]].customerId)
  {
    if keys == [] then [] else [CustomerOf(db, db.registrations.rows[keys[0]].customerId)] + FirstAttendees(db, keys[1..])
  }

  /** With one row per `customer_id` the join holds one row per
      registration: its customer, or NULL. */
  lemma {:induction false} AttendeesOfUnique(db: Db, keys: seq<nat>)
    requires forall k :: k in keys ==> k in db.registrations.rows
    requires UniqueCustomers(db.customers)
    ensures AttendeesOf(db, keys) == FirstAttendees(db, keys)
  {
    if keys != [] {
      CustomerRowsOfUnique(db, db.registrations.rows[keys[0]].customerId);
      AttendeesOfUnique(db, keys[1..]);
    }
  }

  /** The rows of `event LEFT JOIN registrations LEFT JOIN customerinfo` for
      one event: none without the event, one all-NULL attendee for an event
      nobody registered for, else the join rows of each registration. */
  function JoinRows(db: Db, eventId: nat): (r: seq<Option<Customer>>)
    ensures eventId !in db.events.rows <==> r == []
    ensures eventId in db.events.rows ==> |r| >= Max(1, |RegistrationsWhere(db, Some(eventId), None)|)
    ensures eventId in db.events.rows && RegistrationsWhere(db, Some(eventId), None) == [] ==> r == [None]
    ensures eventId in db.events.rows && RegistrationsWhere(db, Some(eventId), None) != [] ==>
              |r| == JoinCount(db, RegistrationsWhere(db, Some(eventId), None))
    ensures forall x :: x in r && x.Some? ==>
              x.value in db.customers.rows.Values && IsRegistered(db, eventId, x.value.customerId)
    ensures eventId in db.events.rows ==>
              forall k :: k in db.customers.rows && IsRegistered(db, eventId, db.customers.rows[k].customerId) ==>
                Some(db.customers.rows[k]) in r
  {
    if eventId !in db.events.rows then []
    else
      var regs := RegistrationsWhere(db, Some(eventId), None);
      RegisteredIds(db, eventId);
      if regs == [] then [None]
      else
        AttendeesOfCovers(db, regs);
        AttendeesOf(db, regs)
  }

  /** The `customer_id`s of an event's registrations are exactly the
      customers registered for it. */
  lemma RegisteredIds(db: Db, eventId: nat)
    ensures forall c :: c in CustomerIdsOf(db, RegistrationsWhere(db, Some(eventId), None))
                        <==> IsRegistered(db, eventId, c)
  {
    var regs := RegistrationsWhere(db, Some(eventId), None);
    var ids := CustomerIdsOf(db, regs);
    forall c ensures c in ids <==> IsRegistered(db, eventId, c) {
      if c in ids {
        var i :| 0 <= i < |ids| && ids[i] == c;
        assert db.registrations.rows[regs[i]] == Registration(eventId, c);
      }
      if IsRegistered(db, eventId, c) {
        var j :| j in db.registrations.rows && db.registrations.rows[j] == Registration(eventId, c);
        assert j in regs;
        var i :| 0 <= i < |regs| && regs[i] == j;
        assert ids[i] == c;
      }
    }
  }

  /** With one row per `customer_id`, an event's join holds exactly one row
      per registration, or the single all-NULL row. */
  lemma JoinRowsOfUnique(db: Db, eventId: nat)
    requires UniqueCustomers(db.customers) && eventId in db.events.rows
    ensures var regs := RegistrationsWhere(db, Some(eventId), None);
            JoinRows(db, eventId) == if regs == [] then [None] else FirstAttendees(db, regs)
    ensures |JoinRows(db, eventId)| == Max(1, |RegistrationsWhere(db, Some(eventId), None)|)
  {
    AttendeesOfUnique(db, RegistrationsWhere(db, Some(eventId), None));
  }

  function Max(a: int, b: int): int {
    if a >= b then a else b
  }

  /** A NULL start or end date: `toISOString()` on it throws. */
  predicate DateMissing(e: Event) {
    e.startDate.None? || e.endDate.None?
  }

  function EventCustomers(db: Db, eventId: nat, pageArg: Option<int>, perPageArg: Option<int>,
                          compose: Compose, now: int): (r: ViewOutcome)
    ensures var page := OrDefault(pageArg, DefaultPage);
            var perPage := OrDefault(perPageArg, DefaultPerPage);
            var shown := page >= 1 && perPage > 0 && Offset(page, perPage) < |JoinRows(db, eventId)|;
            && (r.ViewNotFound? <==> perPage >= 0 && page >= 1 && !shown)
            && (r.ViewServerError? <==>
                  || perPage < 0 || page < 1
                  || (shown && DateMissing(db.events.rows[eventId])))
            && (r.View? ==>
                  && eventId in db.events.rows
                  && !DateMissing(db.events.rows[eventId])
                  && r.meta == MakeMeta(|RegistrationsWhere(db, Some(eventId), None)|, perPage, page)
                  && var e := db.events.rows[eventId];
                  && r.status == StatusMessage(now, StartOf(e, compose), EndOf(e, compose))
                  && 0 < |r.attendees| <= perPage
                  && Page(JoinRows(db, eventId), page, perPage) == Some(r.attendees))
  {
    var page := OrDefault(pageArg, DefaultPage);
    var perPage := OrDefault(perPageArg, DefaultPerPage);
    var rows := JoinRows(db, eventId);
    match Page(rows, page, perPage)
    case None => ViewServerError
    case Some(window) =>
      if window == [] then ViewNotFound
      else
        var e := db.events.rows[eventId];
        if DateMissing(e) then ViewServerError
        else
          var meta := MakeMeta(|RegistrationsWhere(db, Some(eventId), None)|, perPage, page);
          View(meta, StatusMessage(now, StartOf(e, compose), EndOf(e, compose)), window)
  }

  /** An existing event is shown only on the pages its join rows reach, so
      asking for page 2 of a small event yields 404; with one row per
      `customer_id` those are the pages its registrations reach. */
  lemma EventCustomersFoundIff(db: Db, eventId: nat, page: int, perPage: int, compose: Compose, now: int)
    requires page >= 1 && perPage > 0
    ensures EventCustomers(db, eventId, Some(page), Some(perPage), compose, now).View?
            <==> eventId in db.events.rows && !DateMissing(db.events.rows[eventId])
                 && Offset(page, perPage) < |JoinRows(db, eventId)|
    ensures UniqueCustomers(db.customers) ==>
            (EventCustomers(db, eventId, Some(page), Some(perPage), compose, now).View?
             <==> eventId in db.events.rows && !DateMissing(db.events.rows[eventId])
                  && Offset(page, perPage) < Max(1, |RegistrationsWhere(db, Some(eventId), None)|))
  {
    MulNonNeg(page - 1, perPage);
    if UniqueCustomers(db.customers) && eventId in db.events.rows {
      JoinRowsOfUnique(db, eventId);
    }
  }

  // ---------------------------------------------------------------------
  // getRegisteredEventsForCustomer

  /** Each item is reported under `row.id` of `SELECT e.*, r.*`: the
      registration's own `id` column comes after the event's and overwrites
      it, so the key is the registration's. */
  datatype HistoryOutcome =
    | HistoryMissingCustomer   // 400
    | HistoryCustomerNotFound  // 404
    | HistoryServerError
    | History(meta: Meta, events: seq<Keyed<Event>>)

  /** The item is a registration of `customerId` under its key, with the
      stored event it names. */
  predicate RegistrationOf(db: Db, item: Keyed<Event>, customerId: string) {
    && item.id in db.registrations.rows
    && db.registrations.rows[item.id].customerId == customerId
    && db.registrations.rows[item.id].eventId in db.events.rows
    && item.row == db.events.rows[db.registrations.rows[item.id].eventId]
  }

  /** `event LEFT JOIN registrations WHERE r.customer_id = ?`: a registration
      whose event is gone yields no row. */
  function RegisteredEventRows(db: Db, keys: seq<nat>): (r: seq<Keyed<Event>>)
    requires forall k :: k in keys ==> k in db.registrations.rows
    ensures forall x :: x in r ==>
              && x.id in keys
              && db.registrations.rows[x.id].eventId in db.events.rows
              && x.row == db.events.rows[db.registrations.rows[x.id].eventId]
    ensures forall k :: k in keys && db.registrations.rows[k].eventId in db.events.rows
              ==> Keyed(k, db.events.rows[db.registrations.rows[k].eventId]) in r
    ensures Increasing(keys) ==> Increasing(Ids(r))
  {
    if keys == [] then []
    else
      var id := db.registrations.rows[keys[0]].eventId;
      var rest := RegisteredEventRows(db, keys[1..]);
      assert forall k :: k in keys[1..] ==> k in keys;
      if id in db.events.rows then
        PrependKeyed(keys, Keyed(keys[0], db.events.rows[id]), rest);
        [Keyed(keys[0], db.events.rows[id])] + rest
      else rest
  }

  function RegisteredEvents(db: Db, customerId: Option<string>, pageArg: Option<int>, perPageArg: Option<int>): (r: HistoryOutcome)
    ensures !Truthy(customerId) <==> r.HistoryMissingCustomer?
    ensures Truthy(customerId) && FindCustomer(db, customerId).None? <==> r.HistoryCustomerNotFound?
    ensures var page := OrDefault(pageArg, DefaultPage);
            var perPage := OrDefault(perPageArg, DefaultPerPage);
            && (r.HistoryServerError? <==>
                  Truthy(customerId) && FindCustomer(db, customerId).Some? && (perPage < 0 || page < 1))
            && (r.History? ==>
                  && r.meta == MakeMeta(|RegistrationsWhere(db, None, Some(customerId.value))|, perPage, page)
                  && Page(RegisteredEventRows(db, RegistrationsWhere(db, None, Some(customerId.value))), page, perPage)
                     == Some(r.events))
    ensures r.History? ==> forall x :: x in r.events ==> RegistrationOf(db, x, customerId.value)
  {
    var page := OrDefault(pageArg, DefaultPage);
    var perPage := OrDefault(perPageArg, DefaultPerPage);
    if !Truthy(customerId) then HistoryMissingCustomer
    else if FindCustomer(db, customerId).None? then HistoryCustomerNotFound
    else
      var regs := RegistrationsWhere(db, None, Some(customerId.value));
      var rows := RegisteredEventRows(db, regs);
      match Page(rows, page, perPage)
      case None => HistoryServerError
      case Some(items) =>
        PageWithin(rows, page, perPage);
        HistoryRowsRegistered(db, customerId.value);
        History(MakeMeta(|regs|, perPage, page), items)
  }

  /** Every item of a customer's history is one of their registrations, and
      they are registered for its event. */
  lemma HistoryRowsRegistered(db: Db, customerId: string)
    ensures forall x :: x in RegisteredEventRows(db, RegistrationsWhere(db, None, Some(customerId))) ==>
              && RegistrationOf(db, x, customerId)
              && IsRegistered(db, db.registrations.rows[x.id].eventId, customerId)
  {
    var regs := RegistrationsWhere(db, None, Some(customerId));
    forall x | x in RegisteredEventRows(db, regs)
      ensures RegistrationOf(db, x, customerId) && IsRegistered(db, db.registrations.rows[x.id].eventId, customerId)
    {
      assert db.registrations.rows[x.id] == Registration(db.registrations.rows[x.id].eventId, customerId);
    }
  }

  // ---------------------------------------------------------------------
  // EditEvent and DeleteEvent

  /** The supplied `event_type` passes the up-front check: absent, empty, or
      one of the two known types. */
  predicate TypeArgAccepted(eventType: Option<string>) {
    !Truthy(eventType) || OneOf(eventType, EventTypes)
  }

  /** `isSuperAdmin || event.event_type === event_type`; an absent
      `event_type` (undefined) never equals a stored value. */
  predicate MayChange(role: Option<string>, stored: Option<string>, supplied: Option<string>) {
    role == Some(SuperAdmin) || (supplied.Some? && stored == supplied)
  }

  datatype ChangeOutcome = InvalidEventType | ChangeNotFound | Forbidden | Changed

  /** The body of an edit request: the six columns it writes, and the type. */
  datatype EditRequest = EditRequest(
    activityName: Option<string>, course: Option<string>,
    startDate: Option<string>, endDate: Option<string>,
    startTime: Option<string>, endTime: Option<string>,
    eventType: Option<string>)

  function Edited(e: Event, req: EditRequest): (r: Event)
    ensures r.activityName == req.activityName && r.course == req.course
    ensures r.startDate == req.startDate && r.endDate == req.endDate
    ensures r.startTime == req.startTime && r.endTime == req.endTime
    ensures r.eventType == if Truthy(req.eventType) then req.eventType else e.eventType
    ensures r.place == e.place && r.latitude == e.latitude && r.longitude == e.longitude
    ensures r.province == e.province && r.adminId == e.adminId
  {
    e.(activityName := req.activityName, course := req.course,
       startDate := req.startDate, endDate := req.endDate,
       startTime := req.startTime, endTime := req.endTime,
       eventType := OrElse(req.eventType, e.eventType))
  }

  function Edit(db: Db, role: Option<string>, eventId: nat, req: EditRequest): (r: Step<ChangeOutcome>)
    ensures !TypeArgAccepted(req.eventType) ==> r == Step(InvalidEventType, db)
    ensures TypeArgAccepted(req.eventType) && eventId !in db.events.rows ==> r == Step(ChangeNotFound, db)
    ensures r.outcome.Changed? <==>
            TypeArgAccepted(req.eventType) && eventId in db.events.rows
            && MayChange(role, db.events.rows[eventId].eventType, req.eventType)
    ensures r.outcome.Forbidden? <==>
            TypeArgAccepted(req.eventType) && eventId in db.events.rows
            && !MayChange(role, db.events.rows[eventId].eventType, req.eventType)
    ensures r.outcome.Changed? ==>
            && r.db.events.rows == db.events.rows[eventId := Edited(db.events.rows[eventId], req)]
            && r.db.events.nextId == db.events.nextId
            && r.db.admins == db.admins && r.db.customers == db.customers
            && r.db.registrations == db.registrations
    ensures !r.outcome.Changed? ==> r.db == db
    ensures Consistent(db) ==> Consistent(r.db)
  {
    if !TypeArgAccepted(req.eventType) then Step(InvalidEventType, db)
    else if eventId !in db.events.rows then Step(ChangeNotFound, db)
    else
      var e := db.events.rows[eventId];
      if MayChange(role, e.eventType, req.eventType) then
        Step(Changed, db.(events := db.events.(rows := db.events.rows[eventId := Edited(e, req)])))
      else Step(Forbidden, db)
  }

  function Delete(db: Db, role: Option<string>, eventId: nat, eventType: Option<string>): (r: Step<ChangeOutcome>)
    ensures !TypeArgAccepted(eventType) ==> r == Step(InvalidEventType, db)
    ensures TypeArgAccepted(eventType) && eventId !in db.events.rows ==> r == Step(ChangeNotFound, db)
    ensures r.outcome.Changed? <==>
            TypeArgAccepted(eventType) && eventId in db.events.rows
            && MayChange(role, db.events.rows[eventId].eventType, eventType)
    ensures r.outcome.Forbidden? <==>
            TypeArgAccepted(eventType) && eventId in db.events.rows
            && !MayChange(role, db.events.rows[eventId].eventType, eventType)
    ensures r.outcome.Changed? ==>
            && r.db.events.rows.Keys == db.events.rows.Keys - {eventId}
            && (forall k :: k in r.db.events.rows ==> r.db.events.rows[k] == db.events.rows[k])
            && r.db.events.nextId == db.events.nextId
            && r.db.admins == db.admins && r.db.customers == db.customers
            && r.db.registrations == db.registrations
    ensures !r.outcome.Changed? ==> r.db == db
    ensures Consistent(db) ==> Consistent(r.db)
  {
    if !TypeArgAccepted(eventType) then Step(InvalidEventType, db)
    else if eventId !in db.events.rows then Step(ChangeNotFound, db)
    else if MayChange(role, db.events.rows[eventId].eventType, eventType) then
      Step(Changed, db.(events := db.events.Remove(eventId)))
    else Step(Forbidden, db)
  }

  /** Without `event_type` in the body only a super admin may edit, and the
      stored type is then kept. */
  lemma EditWithoutTypeArg(db: Db, role: Option<string>, eventId: nat, req: EditRequest)
    requires req.eventType.None? && eventId in db.events.rows
    ensures Edit(db, role, eventId, req).outcome.Changed? <==> role == Some(SuperAdmin)
    ensures Edit(db, role, eventId, req).outcome.Changed? ==>
            Edit(db, role, eventId, req).db.events.rows[eventId].eventType == db.events.rows[eventId].eventType
  {
  }
}

=== FILE: pagination.dfy ===
/** The paging arithmetic every listing endpoint repeats: query defaults,
    the LIMIT/OFFSET window, and the `meta` block of the response. */
module Pagination {
  import opened Common

  const DefaultPage := 1
  const DefaultPerPage := 10

  /** `parseInt(x) || fallback`: `None` is NaN; NaN and 0 are falsy, every
      other integer (negative ones included) is kept. */
  function OrDefault(parsed: Option<int>, fallback: int): (r: int)
    ensures parsed.Some? && parsed.value != 0 ==> r == parsed.value
    ensures parsed.None? || parsed.value == 0 ==> r == fallback
    ensures fallback != 0 ==> r != 0
  {
    if parsed.Some? && parsed.value != 0 then parsed.value else fallback
  }

  /** `Math.ceil(a / b)` for integers, `b` non-zero. */
  function CeilDiv(a: int, b: int): (r: int)
    requires b != 0
    ensures b > 0 ==> (r - 1) * b < a <= r * b
    ensures b < 0 ==> r * b <= a < (r - 1) * b
  {
    if b > 0 then -((-a) / b) else -(a / (-b))
  }

  /** `(page - 1) * perPage`. */
  function Offset(page: int, perPage: int): int {
    (page - 1) * perPage
  }

  /** The `meta` block. `nextPage` and `previousPage` hold the page numbers
      the `next_page_url` and `previous_page_url` link to, `None` for `null`;
      `first_page` is always 1. */
  datatype Meta = Meta(total: int, perPage: int, currentPage: int, lastPage: int,
                       nextPage: Option<int>, previousPage: Option<int>)

  function MakeMeta(total: int, perPage: int, page: int): (m: Meta)
    requires perPage != 0
    ensures m.total == total && m.perPage == perPage && m.currentPage == page
    ensures perPage > 0 ==> (m.lastPage - 1) * perPage < total <= m.lastPage * perPage
    ensures m.nextPage.Some? <==> page < m.lastPage
    ensures m.nextPage.Some? ==> m.nextPage.value == page + 1
    ensures m.previousPage.Some? <==> page > 1
    ensures m.previousPage.Some? ==> m.previousPage.value == page - 1
  {
    var last := CeilDiv(total, perPage);
    Meta(total, perPage, page, last,
         if page < last then Some(page + 1) else None,
         if page > 1 then Some(page - 1) else None)
  }

  function Min(a: int, b: int): int {
    if a <= b then a else b
  }

  /** `LIMIT limit OFFSET offset` over rows already in scan order. */
  function Window<T>(rows: seq<T>, limit: nat, offset: nat): (r: seq<T>)
    ensures |r| == if offset >= |rows| then 0 else Min(limit, |rows| - offset)
    ensures forall i :: 0 <= i < |r| ==> r[i] == rows[offset + i]
  {
    if offset >= |rows| then [] else rows[offset..Min(offset + limit, |rows|)]
  }

  /** The page query: MySQL rejects a negative LIMIT or OFFSET, which the
      controllers report as an internal error (`None` here). */
  function Page<T>(rows: seq<T>, page: int, perPage: int): (r: Option<seq<T>>)
    ensures r.None? <==> perPage < 0 || page < 1
    ensures r.Some? ==> Offset(page, perPage) >= 0
    ensures r.Some? ==> r.value == Window(rows, perPage, Offset(page, perPage))
    ensures r.Some? ==> |r.value| <= perPage
  {
    if perPage < 0 || page < 1 then None
    else
      MulNonNeg(page - 1, perPage);
      Some(Window(rows, perPage, Offset(page, perPage)))
  }

  /** A page only holds rows of the scan it was cut from. */
  lemma PageWithin<T>(rows: seq<T>, page: int, perPage: int)
    requires Page(rows, page, perPage).Some?
    ensures forall x :: x in Page(rows, page, perPage).value ==> x in rows
  {
    var w := Page(rows, page, perPage).value;
    forall x | x in w ensures x in rows {
      var i :| 0 <= i < |w| && w[i] == x;
      assert w[i] == rows[Offset(page, perPage) + i];
    }
  }

  lemma MulNonNeg(a: int, b: int)
    requires a >= 0 && b >= 0
    ensures a * b >= 0
  {
  }

  lemma MulMonotone(a: int, b: int, p: int)
    requires a <= b && p >= 0
    ensures a * p <= b * p
  {
  }

  /** A page holds rows exactly when its offset is below the row count; with
      a positive page size this is exactly `page <= last_page`. */
  lemma PageNonEmptyIff<T>(rows: seq<T>, page: int, perPage: int)
    requires perPage > 0 && page >= 1
    ensures Page(rows, page, perPage).Some?
    ensures |Page(rows, page, perPage).value| > 0
            <==> page <= MakeMeta(|rows|, perPage, page).lastPage
  {
    var last := MakeMeta(|rows|, perPage, page).lastPage;
    if page <= last {
      MulMonotone(page - 1, last - 1, perPage);
    } else {
      MulMonotone(last, page - 1, perPage);
    }
  }

  /** The `next_page_url` link is present exactly when the next page holds
      rows. */
  lemma NextLinkIffNextPageHasRows<T>(rows: seq<T>, page: int, perPage: int)
    requires perPage > 0 && page >= 1
    ensures MakeMeta(|rows|, perPage, page).nextPage.Some?
            <==> |Page(rows, page + 1, perPage).value| > 0
  {
    PageNonEmptyIff(rows, page + 1, perPage);
    var m := MakeMeta(|rows|, perPage, page);
    assert MakeMeta(|rows|, perPage, page + 1).lastPage == m.lastPage;
  }

  /** Pages `1..count` laid end to end. */
  function Pages<T>(rows: seq<T>, perPage: nat, count: nat): seq<T>
    requires perPage > 0
  {
    if count == 0 then []
    else Pages(rows, perPage, count - 1) + Window(rows, perPage, (count - 1) * perPage)
  }

  lemma {:induction false} PagesArePrefix<T>(rows: seq<T>, perPage: nat, count: nat)
    requires perPage > 0
    ensures Pages(rows, perPage, count) == rows[..Min(count * perPage, |rows|)]
  {
    if count > 0 {
      PagesArePrefix(rows, perPage, count - 1);
      var lo := (count - 1) * perPage;
      assert count * perPage == lo + perPage;
      PrefixThenWindow(rows, lo, perPage);
    }
  }

  /** The rows before an offset followed by the window there are the rows
      before the window's end. */
  lemma PrefixThenWindow<T>(rows: seq<T>, offset: nat, limit: nat)
    ensures rows[..Min(offset, |rows|)] + Window(rows, limit, offset) == rows[..Min(offset + limit, |rows|)]
  {
    if offset < |rows| {
      assert rows[..offset] + rows[offset..Min(offset + limit, |rows|)] == rows[..Min(offset + limit, |rows|)];
    }
  }

  /** Walking pages 1 to `last_page` visits every row exactly once, in order. */
  lemma PagesCoverRows<T>(rows: seq<T>, perPage: nat)
    requires perPage > 0
    ensures Pages(rows, perPage, MakeMeta(|rows|, perPage, 1).lastPage as nat) == rows
  {
    var last := MakeMeta(|rows|, perPage, 1).lastPage;
    if |rows| == 0 {
      assert last == 0 by {
        if last > 0 { MulMonotone(1, last, perPage); }
        if last < 0 { MulMonotone(last, -1, perPage); }
      }
    } else {
      assert last >= 1 by {
        if last <= 0 { MulMonotone(last, 0, perPage); }
      }
    }
    PagesArePrefix(rows, perPage, last as nat);
  }
}

=== FILE: schedule.dfy ===
/** Time rules over event start and end instants: the registration window
    and the two three-way status classifications. */
module Schedule {
  import opened Common

  /** A JavaScript `Date` built from a stored date and time-of-day:
      milliseconds since the epoch, or an Invalid Date (NaN). */
  datatype Instant = At(ms: int) | InvalidDate

  const MsPerMinute := 60000

  /** Registration is open from this many minutes before the start ... */
  const OpenBefore := 15
  /** ... until this many minutes after it. */
  const OpenAfter := 15
  /** Above this many minutes to go the reply is "not started yet". */
  const NotStartedAbove := 415

  /** `Math.floor((start - now) / 60000)`: whole minutes left until the
      start; NaN (`None`) when the start is an Invalid Date. */
  function MinutesToStart(start: Instant, now: int): (r: Option<int>)
    ensures r.Some? <==> start.At?
    ensures r.Some? ==> r.value * MsPerMinute <= start.ms - now < (r.value + 1) * MsPerMinute
  {
    match start
    case At(ms) => Some((ms - now) / MsPerMinute)
    case InvalidDate => None
  }

  /** The verdict of the time check in `registerCustomerForEvent`. */
  datatype Entry = Wait(hours: int, minutes: int) | Open | Expired

  /** The time check's branches in source order. NaN fails every comparison
      and `Math.abs(NaN) <= 15` is false, so an Invalid Date is `Expired`. */
  function EntryWindow(minutesToStart: Option<int>): (r: Entry)
    ensures r.Open? <==> minutesToStart.Some? && -OpenAfter <= minutesToStart.value <= OpenBefore
    ensures r.Wait? <==> minutesToStart.Some? && minutesToStart.value > NotStartedAbove
    ensures r.Wait? ==> r.hours * 60 + r.minutes == minutesToStart.value
                                 && 0 <= r.minutes < 60 && r.hours >= 6
    ensures r.Expired? <==> (|| minutesToStart.None?
                            || minutesToStart.value < -OpenAfter
                            || OpenBefore < minutesToStart.value <= NotStartedAbove)
  {
    match minutesToStart
    case None => Expired
    case Some(m) =>
      if m > NotStartedAbove then Wait(m / 60, m % 60)
      else if m <= OpenBefore && m >= 0 then Open
      else if Abs(m) <= OpenAfter then Open
      else Expired
  }

  function Abs(x: int): int {
    if x < 0 then -x else x
  }

  /** The registration window in milliseconds: it opens strictly after
      16 minutes before the start (a 15-minute lead, because minutes are
      rounded down) and closes 15 minutes after it, inclusive. */
  predicate OpenAt(start: Instant, now: int) {
    start.At? && start.ms - (OpenBefore + 1) * MsPerMinute < now <= start.ms + OpenAfter * MsPerMinute
  }

  /** The minute-based time check opens exactly the millisecond window. */
  lemma OpenWindowInMillis(start: Instant, now: int)
    ensures EntryWindow(MinutesToStart(start, now)).Open? <==> OpenAt(start, now)
  {
    if start.InvalidDate? { return; }
    var m := MinutesToStart(start, now).value;
    if m <= OpenBefore {
      assert (m + 1) * MsPerMinute <= (OpenBefore + 1) * MsPerMinute;
    } else {
      assert m * MsPerMinute >= (OpenBefore + 1) * MsPerMinute;
    }
    if m >= -OpenAfter {
      assert m * MsPerMinute >= -OpenAfter * MsPerMinute;
    } else {
      assert (m + 1) * MsPerMinute <= -OpenAfter * MsPerMinute;
    }
  }

  /** Arriving between 16 and 415 minutes early (inclusive) gets the same
      "registration closed" reply as arriving late: the early-arrival branch
      only covers more than 415 minutes. */
  lemma EarlyArrivalIsClosed(start: int, now: int)
    requires start - (NotStartedAbove + 1) * MsPerMinute < now <= start - (OpenBefore + 1) * MsPerMinute
    ensures EntryWindow(MinutesToStart(At(start), now)).Expired?
  {
    var m := MinutesToStart(At(start), now).value;
    ScaleMonotone(OpenBefore + 1, m + 1, MsPerMinute);
    ScaleMonotone(m, NotStartedAbove + 1, MsPerMinute);
  }

  /** Multiplying by a non-negative factor keeps `>=`. */
  lemma ScaleMonotone(a: int, b: int, c: int)
    requires c >= 0
    ensures a >= b ==> a * c >= b * c
  {
  }

  /** The `status` message of the event-with-customers view. */
  datatype Message = BeforeStart | AfterEnd | Joined

  /** `currentTime < startTime`, then `currentTime > endTime`, else joined;
      a comparison with an Invalid Date is false. */
  function StatusMessage(now: int, start: Instant, end: Instant): (r: Message)
    ensures r.BeforeStart? <==> start.At? && now < start.ms
    ensures r.AfterEnd? <==> !(start.At? && now < start.ms) && end.At? && now > end.ms
    ensures start.At? && end.At? && start.ms <= now <= end.ms ==> r.Joined?
  {
    if start.At? && now < start.ms then BeforeStart
    else if end.At? && now > end.ms then AfterEnd
    else Joined
  }

  /** The `status` attached to every event of the admin event listing. */
  datatype Phase = Upcoming | Starting | Ending

  function EventPhase(now: int, start: Instant, end: Instant): (r: Phase)
    ensures r.Upcoming? <==> start.At? && now < start.ms
    ensures r.Starting? <==> start.At? && end.At? && start.ms <= now <= end.ms
    ensures r.Ending? <==> !r.Upcoming? && !r.Starting?
  {
    if start.At? && now < start.ms then Upcoming
    else if start.At? && now >= start.ms && end.At? && now <= end.ms then Starting
    else Ending
  }

  function Rank(p: Phase): nat {
    match p
    case Upcoming => 0
    case Starting => 1
    case Ending => 2
  }

  /** As time passes an event's phase only moves forward, Invalid Dates
      included. */
  lemma PhaseMonotone(t1: int, t2: int, start: Instant, end: Instant)
    requires t1 <= t2
    ensures Rank(EventPhase(t1, start, end)) <= Rank(EventPhase(t2, start, end))
  {
  }

  /** For valid instants the two classifications agree case for case. */
  lemma ClassificationsAgree(now: int, start: Instant, end: Instant)
    requires start.At? && end.At?
    ensures StatusMessage(now, start, end).BeforeStart? <==> EventPhase(now, start, end).Upcoming?
    ensures StatusMessage(now, start, end).Joined? <==> EventPhase(now, start, end).Starting?
    ensures StatusMessage(now, start, end).AfterEnd? <==> EventPhase(now, start, end).Ending?
  {
  }

  /** With an Invalid Date start they part ways: the view reports a
      successful join while the listing reports the event as over. */
  lemma InvalidStartDisagrees(now: int, end: int)
    requires now <= end
    ensures StatusMessage(now, InvalidDate, At(end)).Joined?
    ensures EventPhase(now, InvalidDate, At(end)).Ending?
  {
  }
}

=== FILE: store.dfy ===
/** The four tables the controllers read and write, as one database value. */
module Store {
  import opened Common
  import opened Tables

  /** The two event classifications. */
  const EventTypes := ["special", "normal"]
  /** The admin roles an admin account may be created with. */
  const AdminRoles := ["super_admin", "special", "normal", "global"]
  /** The role that may edit or delete any event. */
  const SuperAdmin := "super_admin"

  /** A row of `admins`; `passwordHash` is the bcrypt hash. */
  datatype Admin = Admin(username: string, passwordHash: string,
                         firstname: string, lastname: string, role: string)

  /** A row of `event`. Values come from request bodies unchecked, so every
      column may be NULL; dates and times are the stored text, turned into
      instants only by the caller-supplied composition. */
  datatype Event = Event(
    activityName: Option<string>, course: Option<string>,
    startDate: Option<string>, endDate: Option<string>,
    startTime: Option<string>, endTime: Option<string>,
    place: Option<string>, latitude: Option<string>, longitude: Option<string>,
    province: Option<string>, adminId: Option<nat>, eventType: Option<string>)

  /** A row of `customerinfo`, keyed by its own auto-increment id and
      identified to clients by `customerId`. */
  datatype Customer = Customer(
    customerId: string, name: string, picture: string,
    profile: Profile, totalPoint: Option<int>, faceUrl: Option<string>)

  /** The eight columns `updateCustomerProfile` writes. */
  datatype Profile = Profile(
    firstName: Option<string>, lastName: Option<string>, userCode: Option<string>,
    groupSt: Option<string>, branchSt: Option<string>, tpyeSt: Option<string>,
    stTpye: Option<string>, levelST: Option<string>)

  const BlankProfile := Profile(None, None, None, None, None, None, None, None)

  /** A row of `registrations`. */
  datatype Registration = Registration(eventId: nat, customerId: string)

  datatype Db = Db(admins: Table<Admin>, events: Table<Event>,
                   customers: Table<Customer>, registrations: Table<Registration>)

  /** A controller's reply together with the database it leaves behind. */
  datatype Step<O> = Step(outcome: O, db: Db)

  /** At most one `customerinfo` row per `customerId`. */
  predicate UniqueCustomers(t: Table<Customer>) {
    forall i, j :: i in t.rows && j in t.rows && t.rows[i].customerId == t.rows[j].customerId ==> i == j
  }

  /** At most one `registrations` row per (event, customer) pair. */
  predicate UniqueRegistrations(t: Table<Registration>) {
    forall i, j :: i in t.rows && j in t.rows && t.rows[i] == t.rows[j] ==> i == j
  }

  /** The invariant every controller operation preserves. */
  predicate Consistent(db: Db) {
    && db.admins.Valid() && db.events.Valid()
    && db.customers.Valid() && db.registrations.Valid()
    && UniqueCustomers(db.customers) && UniqueRegistrations(db.registrations)
    && RegistrationsReferToIssuedEvents(db)
  }

  /** Every registration names an event id the counter has handed out, so a
      new event never starts with registrations. */
  predicate RegistrationsReferToIssuedEvents(db: Db) {
    forall k :: k in db.registrations.rows ==> db.registrations.rows[k].eventId < db.events.nextId
  }

  /** `SELECT * FROM admins WHERE username = ?`, in key order. */
  function AdminsNamed(db: Db, username: string): (r: seq<nat>)
    ensures Increasing(r)
    ensures forall k :: k in r <==> k in db.admins.rows && db.admins.rows[k].username == username
  {
    Ascending(set k | k in db.admins.rows && db.admins.rows[k].username == username)
  }

  /** `SELECT * FROM customerinfo WHERE customer_id = ?`, in key order; a
      NULL parameter matches no row. */
  function CustomersWithId(db: Db, customerId: Option<string>): (r: seq<nat>)
    ensures Increasing(r)
    ensures forall k :: k in r <==> k in db.customers.rows && customerId == Some(db.customers.rows[k].customerId)
  {
    Ascending(set k | k in db.customers.rows && customerId == Some(db.customers.rows[k].customerId))
  }

  /** The first `customerinfo` row for `customerId`, as `results[0]` or a
      LEFT JOIN sees it. */
  function FindCustomer(db: Db, customerId: Option<string>): (r: Option<nat>)
    ensures r.Some? ==> r.value in db.customers.rows && customerId == Some(db.customers.rows[r.value].customerId)
    ensures r.None? <==> forall k :: k in db.customers.rows ==> customerId != Some(db.customers.rows[k].customerId)
    ensures r.Some? ==> forall k :: k in db.customers.rows && customerId == Some(db.customers.rows[k].customerId) ==> r.value <= k
  {
    var keys := CustomersWithId(db, customerId);
    if |keys| == 0 then None
    else
      assert forall k :: k in keys ==> keys[0] <= k by {
        forall k | k in keys ensures keys[0] <= k { FirstIsLeast(keys, k); }
      }
      Some(keys[0])
  }

  /** `SELECT * FROM registrations WHERE event_id = ? AND customer_id = ?`
      returns a row. */
  predicate IsRegistered(db: Db, eventId: nat, customerId: string) {
    Registration(eventId, customerId) in db.registrations.rows.Values
  }

  /** `SELECT ... FROM registrations WHERE event_id = ? AND customer_id = ?`
      with a `None` condition left out of the `WHERE` clause: the keys of
      the matching rows, in key order. */
  function RegistrationsWhere(db: Db, eventId: Option<nat>, customerId: Option<string>): (r: seq<nat>)
    ensures Increasing(r)
    ensures forall k :: k in r <==>
              && k in db.registrations.rows
              && (eventId.None? || db.registrations.rows[k].eventId == eventId.value)
              && (customerId.None? || db.registrations.rows[k].customerId == customerId.value)
  {
    Ascending(set k | k in db.registrations.rows
                      && (eventId.None? || db.registrations.rows[k].eventId == eventId.value)
                      && (customerId.None? || db.registrations.rows[k].customerId == customerId.value))
  }

  /** Events passing the optional `event_type` filter, in key order. */
  function EventsOfType(db: Db, eventType: Option<string>): (r: seq<nat>)
    ensures Increasing(r)
    ensures forall k :: k in r <==> k in db.events.rows && (!Truthy(eventType) || db.events.rows[k].eventType == eventType)
  {
    Ascending(set k | k in db.events.rows && (!Truthy(eventType) || db.events.rows[k].eventType == eventType))
  }

  /** Customers passing the optional `st_tpye` filter, in key order. */
  function CustomersOfType(db: Db, stType: Option<string>): (r: seq<nat>)
    ensures Increasing(r)
    ensures forall k :: k in r <==> k in db.customers.rows && (!Truthy(stType) || db.customers.rows[k].profile.stTpye == stType)
  {
    Ascending(set k | k in db.customers.rows && (!Truthy(stType) || db.customers.rows[k].profile.stTpye == stType))
  }
}

=== FILE: tables.dfy ===
/** Relational tables as finite maps keyed by an auto-increment primary key. */
module Tables {

  /** A table: rows by primary key, and the next value the auto-increment
      counter hands out. */
  datatype Table<T> = Table(rows: map<nat, T>, nextId: nat) {

    /** Every stored key was handed out by the counter earlier. */
    predicate Valid() {
      forall k :: k in rows ==> k < nextId
    }

    /** `INSERT`: the row is stored under the counter's value, which is
        returned as the insert id. */
    function Insert(row: T): (r: (Table<T>, nat))
      ensures r.1 == nextId
      ensures r.0.rows == rows[nextId := row]
      ensures Valid() ==> r.1 !in rows && r.0.Valid()
    {
      (Table(rows[nextId := row], nextId + 1), nextId)
    }

    /** `DELETE ... WHERE id = ?`. */
    function Remove(key: nat): (r: Table<T>)
      ensures r.rows.Keys == rows.Keys - {key}
      ensures forall k :: k in r.rows ==> r.rows[k] == rows[k]
      ensures Valid() ==> r.Valid()
    {
      Table(rows - {key}, nextId)
    }
  }

  /** A row returned together with its primary key. */
  datatype Keyed<T> = Keyed(id: nat, row: T)

  /** The keys of a list of keyed rows, in order. */
  function Ids<T>(items: seq<Keyed<T>>): (r: seq<nat>)
    ensures |r| == |items|
    ensures forall i :: 0 <= i < |items| ==> r[i] == items[i].id
  {
    if items == [] then [] else [items[0].id] + Ids(items[1..])
  }

  /** `m` is the least element of `s`. */
  predicate IsLeast(m: nat, s: set<nat>) {
    m in s && forall x :: x in s ==> m <= x
  }

  lemma {:induction false} HasMinimum(s: set<nat>)
    requires s != {}
    ensures exists m :: IsLeast(m, s)
    decreases |s|
  {
    var y :| y in s;
    var rest := s - {y};
    if rest == {} {
      forall x | x in s ensures y <= x {
        assert x in rest || x == y;
      }
      assert IsLeast(y, s);
    } else {
      HasMinimum(rest);
      var m :| IsLeast(m, rest);
      var least := if y < m then y else m;
      forall x | x in s ensures least <= x {
        assert x in rest || x == y;
      }
      assert IsLeast(least, s);
    }
  }

  /** The least element of a non-empty set of keys. */
  function MinOf(s: set<nat>): (m: nat)
    requires s != {}
    ensures IsLeast(m, s)
  {
    HasMinimum(s);
    var m :| IsLeast(m, s);
    m
  }

  /** Strictly increasing sequence of keys. */
  predicate Increasing(r: seq<nat>) {
    forall i, j :: 0 <= i < j < |r| ==> r[i] < r[j]
  }

  /** The keys of `s` in primary-key order: the order a table scan
      returns matching rows in. */
  function Ascending(s: set<nat>): (r: seq<nat>)
    ensures |r| == |s|
    ensures forall x :: x in r <==> x in s
    ensures Increasing(r)
    decreases |s|
  {
    if s == {} then []
    else
      var m := MinOf(s);
      var rest := Ascending(s - {m});
      PrependLeast(m, s, rest);
      [m] + rest
  }

  /** Putting the least key in front of the ascending rest keeps the order
      and yields exactly the keys of `s`. */
  lemma PrependLeast(m: nat, s: set<nat>, rest: seq<nat>)
    requires IsLeast(m, s)
    requires Increasing(rest)
    requires forall x :: x in rest <==> x in s - {m}
    ensures Increasing([m] + rest)
    ensures forall x :: x in [m] + rest <==> x in s
  {
    forall j | 0 <= j < |rest| ensures m < rest[j] {
      assert rest[j] in s - {m};
    }
  }

  /** A key below every key of an increasing sequence can go in front. */
  lemma IncreasingPrepend(x: nat, s: seq<nat>)
    requires Increasing(s)
    requires forall y :: y in s ==> x < y
    ensures Increasing([x] + s)
  {
    forall j | 0 <= j < |s| ensures x < s[j] {
      assert s[j] in s;
    }
  }

  /** Rows picked in order from increasing keys, with the first key's row
      put in front, are still in increasing key order. */
  lemma PrependKeyed<T>(keys: seq<nat>, x: Keyed<T>, rest: seq<Keyed<T>>)
    requires keys != [] && x.id == keys[0]
    requires forall y :: y in rest ==> y.id in keys[1..]
    requires Increasing(keys[1..]) ==> Increasing(Ids(rest))
    ensures Increasing(keys) ==> Increasing(Ids([x] + rest))
  {
    if Increasing(keys) {
      assert Increasing(keys[1..]);
      forall y | y in Ids(rest) ensures x.id < y {
        var i :| 0 <= i < |rest| && Ids(rest)[i] == y;
        assert rest[i] in rest;
        var j :| 1 <= j < |keys| && keys[j] == y;
      }
      assert Ids([x] + rest) == [x.id] + Ids(rest) by { assert ([x] + rest)[1..] == rest; }
      IncreasingPrepend(x.id, Ids(rest));
    }
  }

  /** In an increasing sequence the first element is the least one. */
  lemma FirstIsLeast(r: seq<nat>, x: nat)
    requires Increasing(r) && x in r
    ensures r[0] <= x
  {
  }

  /** Past the head of an increasing sequence lie exactly its other elements. */
  lemma InTail(a: seq<nat>, x: nat)
    requires Increasing(a) && a != []
    ensures x in a[1..] <==> x in a && x != a[0]
  {
    if x in a[1..] {
      var i :| 0 <= i < |a| - 1 && a[1..][i] == x;
      assert a[i + 1] == x;
    }
    if x in a && x != a[0] {
      var i :| 0 <= i < |a| && a[i] == x;
      assert a[1..][i - 1] == x;
    }
  }

  /** An increasing sequence is determined by its elements: two scans that
      find the same keys return them identically. */
  lemma {:induction false} IncreasingUnique(a: seq<nat>, b: seq<nat>)
    requires Increasing(a) && Increasing(b)
    requires forall x :: x in a <==> x in b
    ensures a == b
    decreases |a|
  {
    assert b != [] ==> b[0] in b;
    if a != [] {
      assert a[0] in b;
      FirstIsLeast(a, b[0]);
      FirstIsLeast(b, a[0]);
      forall x ensures x in a[1..] <==> x in b[1..] {
        InTail(a, x);
        InTail(b, x);
      }
      IncreasingUnique(a[1..], b[1..]);
      assert a == [a[0]] + a[1..];
      assert b == [b[0]] + b[1..];
    }
  }
}
